=== FILE: README.md ===
# CodeTrust AI authentication backend, modelled in Dafny

This project models the backend logic of the CodeTrust AI site. That logic covers:

- credential sign-in;
- the two-step password reset, where a token is issued by email and then redeemed;
- the profile update endpoint;
- the middleware that guards dashboard routes.

Each route handler is a pure function. It takes a store, an environment and the request. It returns the response and the new store:

- The store (`Store.Store`) is the `User` table and the `VerificationToken` table, as sequences in table order.
- The environment supplies the clock in milliseconds, the bcrypt salt, the 32 random bytes, and whether the store writes and mail sends that can fail succeed.

| module | file | models |
|---|---|---|
| `Optional`, `Http` | optional.dfy | optional request fields, JavaScript truthiness, replies |
| `Hasher` | hasher.dfy | bcrypt as an idealised hash with `Verify(p, Hash(p, salt))` |
| `Store` | store.dfy | the two tables, their unique constraints, and the Prisma lookups and deletes the handlers use |
| `Hex` | hex.dfy | `Buffer.toString("hex")`, with its decoder |
| `ResetPassword` | reset_password.dfy | `POST /api/auth/reset-password` |
| `ForgotPassword` | forgot_password.dfy | `POST /api/auth/forgot-password` |
| `Credentials` | credentials.dfy | the Credentials provider's `authorize` |
| `AccessGuard` | access_guard.dfy | the middleware callback and its matcher |
| `Profile` | profile.dfy | `PATCH /api/user/profile` |
| `Scenarios` | scenarios.dfy | properties that span several handlers |

In several places the code does not do what the flow is meant to do. For example, the reply "If email exists, link sent" (src/app/api/auth/forgot-password/route.ts:15) is worded not to reveal whether an account exists. The model follows the code in each case:

- Issuing a token never removes older tokens for the same email. `ForgotPassword.IssueKeepsOlderTokens` and `Scenarios.EarlierTokenStillRedeemable` prove that an earlier token stays redeemable.
- The forgot-password replies differ for a registered and an unknown email. Both are 200, but the messages differ (`ForgotPassword.IssueRepliesDiffer`).
- Forgot-password has no error handling and never answers 400. Three cases are modelled as `Thrown`, which the framework answers with 500:
  - a body without `email`;
  - a duplicate key on insert;
  - a failed mail send.
- The profile endpoint returns the whole updated user record, including the stored password hash (`Profile.ProfileUpdated`).
- Reset tokens name an email, not a user. After a profile email change, an outstanding token for the old email is answered with 404 (`Scenarios.EmailChangeOrphansResetToken`).

## Model

| member | source | states |
|---|---|---|
| Hasher.Hash | src/app/api/auth/reset-password/route.ts:60 | the new digest verifies against the password it was made from and embeds the drawn salt |
| Hasher.VerifyHash | src/auth.ts:42-45 | verification of a digest accepts exactly the plaintext it was hashed from, for any salt (idealised: bcrypt's 72-byte truncation is not modelled) |
| Store.FindToken | src/app/api/auth/reset-password/route.ts:18-20 | findFirst by token gives the first row in table order that carries the token, or none when no row does |
| Store.FindUserByEmail | src/app/api/auth/reset-password/route.ts:48-50 | the lookup by email returns a user with that email, or none when no user has it |
| Store.FindUserByEmailUnique | src/app/api/auth/reset-password/route.ts:48-50 | under the unique-email constraint the lookup finds the one user holding the email |
| Store.FindUserById | src/app/api/user/profile/route.ts:20-21 | the lookup by id returns a user with that id, or none when no user has it |
| Store.FindUserByIdUnique | src/app/api/user/profile/route.ts:20-21 | under the primary-key constraint the lookup finds the one user with the id |
| Store.DeleteKey | src/app/api/auth/reset-password/route.ts:68-75 | a delete by composite key removes exactly the rows with that (identifier, token) and keeps every other row; a missing key changes nothing |
| Store.DeleteKeyKeepsUnique | src/app/api/auth/reset-password/route.ts:68-75 | deleting a key keeps the (identifier, token) primary key unique |
| Store.AppendKeepsUnique | src/app/api/auth/forgot-password/route.ts:22-28 | inserting a row whose key is new keeps the (identifier, token) primary key unique |
| Hex.Encode | src/app/api/auth/forgot-password/route.ts:18 | hex text has two characters per byte, all in [0-9a-f] |
| Hex.DecodeEncode | src/app/api/auth/forgot-password/route.ts:18 | decoding the hex text recovers the bytes |
| Hex.EncodeInjective | src/app/api/auth/forgot-password/route.ts:18 | distinct random draws give distinct tokens |
| ResetPassword.Commit | src/app/api/auth/reset-password/route.ts:63-76 | the transaction sets that user's password and leaves every other field of the user and every other user alone, and deletes exactly the row with the token's key |
| ResetPassword.Redeem | src/app/api/auth/reset-password/route.ts:6-86 | the reply is one of the six the handler sends; bcrypt runs exactly on the 200 and 500 paths; every non-200 exit leaves all users unchanged; all exits but 200 and "expired" leave the store unchanged |
| ResetPassword.RedeemMissingInput | src/app/api/auth/reset-password/route.ts:10-15 | a missing or empty token or password gives 400 "Missing token or password" with the store unchanged and no hashing |
| ResetPassword.RedeemUnknownToken | src/app/api/auth/reset-password/route.ts:18-27 | a token no row carries gives 400 "Invalid or expired reset link" with the store unchanged |
| ResetPassword.RedeemExpired | src/app/api/auth/reset-password/route.ts:30-45 | when now > expires the reply is the 400 expiry message and no user changes; the row is deleted if the cleanup succeeds, and the store is untouched if it fails |
| ResetPassword.RedeemUnexpired | src/app/api/auth/reset-password/route.ts:30 | expiry is strict: at now <= expires, including now == expires, the token passes to the user lookup |
| ResetPassword.RedeemAccountMissing | src/app/api/auth/reset-password/route.ts:48-57 | a valid token whose email no user holds gives 404 with the token row and all users unchanged |
| ResetPassword.RedeemSuccess | src/app/api/auth/reset-password/route.ts:59-78 | on success the owner's password becomes Hash(password); only its other fields stay, every other user is unchanged, exactly that token row is removed, the reply is 200 and the store stays valid |
| ResetPassword.RedeemCommitFails | src/app/api/auth/reset-password/route.ts:63-84 | a failed transaction gives 500 with neither the password nor the token row changed |
| ResetPassword.RedeemKeepsValid | src/app/api/auth/reset-password/route.ts:6-86 | every outcome keeps the store's unique constraints |
| ResetPassword.RedeemTwice | src/app/api/auth/reset-password/route.ts:18-75 | after a success, redeeming the same token gives the 400 invalid-link reply, provided no other row held that token string |
| ResetPassword.RedeemSaltIndependent | src/app/api/auth/reset-password/route.ts:10-60 | no exit before the hash depends on the salt, so hashing happens only after the token, expiry and user checks pass |
| ForgotPassword.MintToken | src/app/api/auth/forgot-password/route.ts:18 | the token is 64 characters, all in [0-9a-f] |
| ForgotPassword.MintTokenDecodes | src/app/api/auth/forgot-password/route.ts:18 | the token is the hex encoding of the 32 random bytes |
| ForgotPassword.ResetLink | src/app/api/auth/forgot-password/route.ts:30-31 | the link is the base URL ("undefined" when unset), then "/reset-password?token=", then the token at the very end |
| ForgotPassword.ResetMail | src/app/api/auth/forgot-password/route.ts:41-45 | the mail goes to the submitted address with subject "Reset Password", and its body is one anchor whose target is exactly the link |
| ForgotPassword.ResetMailTarget | src/app/api/auth/forgot-password/route.ts:44 | a mail client reading the anchor's quoted target gets the link back whole, for any link without a double quote |
| ForgotPassword.ResetMailCarriesToken | src/app/api/auth/forgot-password/route.ts:30-31 | following the mailed anchor and reading its `token` parameter yields the minted token, for any base URL without a double quote |
| ForgotPassword.ResetLinkCarriesToken | src/app/api/auth/forgot-password/route.ts:30-31 | for any base URL, the link's trailing query value is exactly the minted token |
| ForgotPassword.Issue | src/app/api/auth/forgot-password/route.ts:6-48 | every answer is 200; users never change; existing rows stay in place and at most one is appended; a mail is attempted exactly when a row was appended, and it goes to the submitted email |
| ForgotPassword.IssueUnknownEmail | src/app/api/auth/forgot-password/route.ts:10-16 | an unknown email gives 200 "If email exists, link sent", no new row and no mail |
| ForgotPassword.IssueKnownEmail | src/app/api/auth/forgot-password/route.ts:18-47 | a registered email appends exactly (email, token, now + 3600000) and mails base + "/reset-password?token=" + token to that email; the answer is "Reset link sent", or a thrown error if the send fails |
| ForgotPassword.IssueMissingEmail | src/app/api/auth/forgot-password/route.ts:8-12 | a body without `email` escapes the handler at the user lookup, whatever the store holds, with the store unchanged and no mail |
| ForgotPassword.IssueDuplicateKey | src/app/api/auth/forgot-password/route.ts:22-28 | for a registered email whose (email, token) key already exists the insert throws: the store is unchanged and no mail is sent |
| ForgotPassword.IssueMailFailureKeepsRow | src/app/api/auth/forgot-password/route.ts:22-45 | the row is written before the mail, so a failed send escapes the handler and leaves the new row |
| ForgotPassword.IssueKeepsOlderTokens | src/app/api/auth/forgot-password/route.ts:22-28 | issuance never deletes or changes an existing row, including older tokens for the same email |
| ForgotPassword.IssueRepliesDiffer | src/app/api/auth/forgot-password/route.ts:15-47 | registered and unknown emails both get 200, but with different messages |
| ForgotPassword.IssueKeepsValid | src/app/api/auth/forgot-password/route.ts:22-28 | issuance keeps the store's unique constraints |
| Credentials.Authorize | src/auth.ts:33-50 | a non-null result requires present email and password, and is a stored user with that email whose stored hash verifies against the password; the store is only read |
| Credentials.AuthorizeComplete | src/auth.ts:36-49 | a registered user whose stored hash verifies against the submitted password is returned |
| Credentials.AuthorizeRefusesUser | src/auth.ts:40-47 | a user with no stored hash (OAuth-only) or a hash that does not verify gets null |
| AccessGuard.Guard | src/proxy.ts:10-26 | it redirects exactly when the path starts with "/dashboard" and there is no session, always to "/login"; "/api/auth" paths pass |
| AccessGuard.MatcherSelects | src/proxy.ts:28-30 | the matcher refuses "/_next" and "/favicon" + any non-terminator character + "ico" (the favicon and look-alikes such as "/faviconXico"); it selects a "/dashboard" path exactly when the path holds no JavaScript line terminator |
| AccessGuard.Middleware | src/proxy.ts:28-30 | a redirect happens only on paths the matcher selects, and it is the guard's decision |
| AccessGuard.AuthApiAlwaysAllowed | src/proxy.ts:16-18 | every path starting with "/api/auth" passes, with or without a session |
| AccessGuard.DashboardNeedsSession | src/proxy.ts:21-23 | a path starting with "/dashboard", free of line terminators, with no session is redirected to "/login" |
| AccessGuard.LoggedInNeverRedirected | src/proxy.ts:21-25 | a request with a session is never redirected |
| AccessGuard.OtherPathsAllowed | src/proxy.ts:25 | a path under neither prefix passes |
| AccessGuard.RawPrefixes | src/proxy.ts:16-21 | the prefix tests are raw: "/dashboardX" is protected and "/api/authz" passes |
| AccessGuard.MatcherSkipsAssets | src/proxy.ts:28-30 | paths under "/_next" or "/favicon.ico", and wildcard look-alikes such as "/faviconXico", never reach the guard and pass |
| AccessGuard.LineTerminatorSkipsGuard | src/proxy.ts:29 | the matcher's `.*` stops at a line terminator, so an anonymous "/dashboard\r" passes unguarded |
| Profile.Apply | src/app/api/user/profile/route.ts:17-22 | a submitted name, email or bio is written and an absent one keeps its stored value; id and password hash are never written |
| Profile.UpdateProfile | src/app/api/user/profile/route.ts:5-30 | 401 exactly without a session user id; 401 and 500 leave the store unchanged; token rows, ids and password hashes never change; only the session's own user can change; a JSON answer is that stored user |
| Profile.ProfileUnauthorized | src/app/api/user/profile/route.ts:11-13 | a missing or empty session user id gives 401 with the store unchanged |
| Profile.ProfileUnknownUser | src/app/api/user/profile/route.ts:20-29 | a session user id that no row has gives 500 with the store unchanged |
| Profile.ProfileEmailConflict | src/app/api/user/profile/route.ts:20-29 | an email held by another user gives 500 with the store unchanged |
| Profile.ProfileUpdated | src/app/api/user/profile/route.ts:17-25 | the session's user gets exactly the submitted name, email and bio, and keeps its unsubmitted fields; the response is the stored record, password hash included; all other users are unchanged |
| Profile.ProfileKeepsValid | src/app/api/user/profile/route.ts:20-23 | every outcome keeps ids and emails unique |
| Scenarios.ResetThenSignIn | src/app/api/auth/reset-password/route.ts:59-78 | after an issue and a timely redemption, sign-in succeeds with the new password and, under the idealised hash, fails with any other |
| Scenarios.EarlierTokenStillRedeemable | src/app/api/auth/forgot-password/route.ts:22-28 | after two requests for the same email, the first token can still be redeemed within its hour |
| Scenarios.EmailChangeOrphansResetToken | src/app/api/user/profile/route.ts:20-23 | after the owner changes email, redeeming a token for the old email gives 404 |

## Left out

- The response is the updated record, as JSON; the model does not cover JSON serialisation. `NextResponse` construction is not modelled either.
- Malformed JSON bodies and non-string field values are left out. JSON `null` profile fields, which Prisma would write as null, are left out too. The model covers only absent fields and strings.
- Store failures other than these are not modelled:
  - the reset-path cleanup delete;
  - the reset transaction;
  - the duplicate-key insert;
  - the profile update's missing-row and unique-email errors.

  Examples are lost connections and failing reads. In reset-password and profile they would be caught and answered with 500.
- Concurrency between requests and Prisma's transaction engine are not modelled; each handler runs alone on the store.
- Two parts of bcrypt are not modelled: the internals and the cost factor of 10. The hash is idealised as collision-free. A stored empty-string hash, which bcrypt never produces, cannot be represented.
- Hasher.VerifyHash: bcrypt only uses the first 72 UTF-8 bytes of a password, so two passwords sharing those bytes verify against the same digest. The model's `Verify` compares the whole password and does not promise this truncation.
- Scenarios.ResetThenSignIn: its refusal of every other password holds for the idealised hash only. With bcrypt's 72-byte truncation, an old password that shares its first 72 bytes with the new one would still sign in.
- `crypto.randomBytes` is not modelled; the 32 bytes are a parameter. The mail transport is not modelled either: nodemailer, the sender address and the SMTP settings are outside it. Only the message handed to the transport and whether sending succeeds are kept.
- src/lib/mail.ts is not called by the handlers and is not part of this model.
- NextAuth's session issuance is not part of this model. The same applies to the Google and GitHub OAuth providers and the Prisma adapter with its account linking.
- The redirect's absolute URL is left out. `new URL("/login", req.url)` adds the request's origin, and the model keeps only the path "/login".
- Store.FindToken: Prisma's `findFirst` without `orderBy` does not promise which matching row it returns. Table order is this model's choice, and it matters only when two rows share a token string.
- AccessGuard.LineTerminatorSkipsGuard: no real request reaches this case. URL parsing removes CR and LF and percent-encodes U+2028 and U+2029, so `req.nextUrl.pathname` never holds a line terminator. The lemma describes the regular expression, not a guard bypass.
- AccessGuard.MatcherSelects: the matcher is modelled as the JavaScript regular expression on the pathname, where `.` matches anything but a line terminator. Next's extra matching of `/_next/data/...` routes is left out.
- AccessGuard.Middleware: it describes only the proxy callback behind the matcher. src/auth.config is not part of this model, and the middleware spreads its settings into NextAuth at src/auth.ts:16. If that file declares an `authorized` callback, NextAuth could answer a request before the callback runs. So AccessGuard.LoggedInNeverRedirected and the other guard lemmas describe the proxy callback, not every response the middleware can produce.
- ForgotPassword.ResetMailTarget: it reads the anchor's target as the text up to the next double quote. It does not model HTML entity decoding or a mail client's URL normalisation.
- ForgotPassword.ResetLinkCarriesToken: it reads the token as the text after the link's last '='. This is a simplification of `URLSearchParams.get("token")` in src/app/(auth)/reset-password/page.tsx:12.
- The React components, pages and mocked dashboard data are left out.

=== FILE: access_guard.dfy ===
/** The request guard installed as middleware (`proxy.ts`): a pure decision
    from the request path and the presence of a session, applied only to
    paths the middleware matcher selects. */
module AccessGuard {

  datatype Decision = Next | Redirect(location: string)

  predicate StartsWith(s: string, prefix: string) {
    |prefix| <= |s| && s[..|prefix|] == prefix
  }

  const AuthApiPrefix := "/api/auth"
  const DashboardPrefix := "/dashboard"
  const LoginPath := "/login"

  /** The callback passed to `auth(...)`. The prefixes are raw string
      prefixes, not path segments. */
  function Guard(pathname: string, isLoggedIn: bool): (d: Decision)
    ensures d.Redirect? <==> StartsWith(pathname, DashboardPrefix) && !isLoggedIn
    ensures d.Redirect? ==> d.location == LoginPath
    ensures StartsWith(pathname, AuthApiPrefix) ==> d == Next
  {
    if StartsWith(pathname, AuthApiPrefix) then
      assert !StartsWith(pathname, DashboardPrefix) by {
        assert pathname[1] == pathname[..|AuthApiPrefix|][1] == 'a';
        if |DashboardPrefix| <= |pathname| {
          assert pathname[..|DashboardPrefix|][1] == 'a';
        }
      }
      Next
    else if StartsWith(pathname, DashboardPrefix) && !isLoggedIn then Redirect(LoginPath)
    else Next
  }

  /** The characters a JavaScript regular expression's `.` does not match
      (without the `s` flag): line feed, carriage return, and the line and
      paragraph separators. */
  predicate LineTerminator(c: char) {
    c == '\n' || c == '\r' || c == '\U{2028}' || c == '\U{2029}'
  }

  /** The lookahead alternative `favicon.ico`, whose `.` is the wildcard. */
  predicate FaviconAhead(rest: string) {
    |rest| >= 11 && rest[..7] == "favicon" && !LineTerminator(rest[7]) && rest[8..11] == "ico"
  }

  /** The paths the matcher's lookahead refuses: framework assets, and
      "/favicon" followed by any non-terminator character and "ico" (the
      favicon itself and the look-alikes the wildcard admits). */
  predicate AssetPath(pathname: string) {
    StartsWith(pathname, "/_next")
    || (StartsWith(pathname, "/favicon") && |pathname| >= 12
        && !LineTerminator(pathname[8]) && pathname[9..12] == "ico")
  }

  /** Dropping the leading '/' of a path that starts with "/" + p leaves a
      text that starts with p. */
  lemma TailStartsWith(pathname: string, p: string)
    requires StartsWith(pathname, "/" + p)
    ensures StartsWith(pathname[1..], p)
  {
    assert pathname[1..][..|p|] == pathname[..|p| + 1][1..];
  }

  /** An asset path trips one alternative of the lookahead. */
  lemma AssetLookahead(pathname: string)
    requires AssetPath(pathname)
    ensures StartsWith(pathname[1..], "_next") || FaviconAhead(pathname[1..])
  {
    if !StartsWith(pathname, "/_next") {
      TailStartsWith(pathname, "favicon");
      var r := pathname[1..];
      assert r[..7] == r[..11][..7];
      assert r[7] == pathname[8];
      assert r[8..11] == pathname[9..12];
      assert FaviconAhead(r);
    } else {
      TailStartsWith(pathname, "_next");
    }
  }

  /** A dashboard path, starting "/d", trips neither alternative. */
  lemma DashboardLookahead(pathname: string)
    requires StartsWith(pathname, DashboardPrefix)
    ensures pathname[0] == '/' && !StartsWith(pathname[1..], "_next") && !FaviconAhead(pathname[1..])
  {
    assert pathname[0] == pathname[..10][0];
    assert pathname[1] == pathname[..10][1] == 'd';
    var r := pathname[1..];
    assert r[0] == 'd';
    assert r[..5][0] == 'd';
    assert |r| >= 7 ==> r[..7][0] == 'd';
  }

  /** Where the first character after the leading '/' decides the lookahead:
      asset paths trip it and dashboard paths do not. */
  lemma LookaheadFacts(pathname: string)
    ensures AssetPath(pathname) ==>
      StartsWith(pathname[1..], "_next") || FaviconAhead(pathname[1..])
    ensures StartsWith(pathname, DashboardPrefix) ==>
      pathname[0] == '/' && !StartsWith(pathname[1..], "_next") && !FaviconAhead(pathname[1..])
  {
    if AssetPath(pathname) {
      AssetLookahead(pathname);
    }
    if StartsWith(pathname, DashboardPrefix) {
      DashboardLookahead(pathname);
    }
  }

  /** Whether the matcher `/((?!_next|favicon.ico).*)` matches the whole
      path: a leading '/', then text that starts with neither alternative
      of the negative lookahead and holds no line terminator. */
  predicate MatcherSelects(pathname: string)
    ensures AssetPath(pathname) ==> !MatcherSelects(pathname)
    ensures StartsWith(pathname, DashboardPrefix) ==>
      (MatcherSelects(pathname) <==> forall i :: 0 <= i < |pathname| ==> !LineTerminator(pathname[i]))
  {
    LookaheadFacts(pathname);
    |pathname| >= 1 && pathname[0] == '/'
    && !StartsWith(pathname[1..], "_next")
    && !FaviconAhead(pathname[1..])
    && forall i :: 1 <= i < |pathname| ==> !LineTerminator(pathname[i])
  }

  /** The proxy callback behind the matcher: paths the matcher skips pass
      through without the guard. */
  function Middleware(pathname: string, isLoggedIn: bool): (d: Decision)
    ensures d.Redirect? ==> MatcherSelects(pathname) && d == Guard(pathname, isLoggedIn)
  {
    if MatcherSelects(pathname) then Guard(pathname, isLoggedIn) else Next
  }

  /** Auth endpoints are always reachable, logged in or not. */
  lemma AuthApiAlwaysAllowed(pathname: string, isLoggedIn: bool)
    requires StartsWith(pathname, AuthApiPrefix)
    ensures Middleware(pathname, isLoggedIn) == Next
  {
  }

  /** An anonymous request for the dashboard is sent to the login page. */
  lemma DashboardNeedsSession(pathname: string)
    requires StartsWith(pathname, DashboardPrefix)
    requires forall i :: 0 <= i < |pathname| ==> !LineTerminator(pathname[i])
    ensures Middleware(pathname, false) == Redirect(LoginPath)
  {
  }

  /** A request with a session is never redirected. */
  lemma LoggedInNeverRedirected(pathname: string)
    ensures Middleware(pathname, true) == Next
  {
  }

  /** Everything outside the two prefixes passes. */
  lemma OtherPathsAllowed(pathname: string, isLoggedIn: bool)
    requires !StartsWith(pathname, AuthApiPrefix) && !StartsWith(pathname, DashboardPrefix)
    ensures Middleware(pathname, isLoggedIn) == Next
  {
  }

  /** The prefix tests do not respect path segments. */
  lemma RawPrefixes()
    ensures Middleware("/dashboardX", false) == Redirect(LoginPath)
    ensures Middleware("/api/authz", false) == Next
  {
    DashboardNeedsSession("/dashboardX");
    assert StartsWith("/api/authz", AuthApiPrefix);
  }

  /** The guard does not run on framework assets or on the favicon, nor on
      look-alikes such as "/faviconXico" that the wildcard admits. */
  lemma MatcherSkipsAssets(pathname: string, isLoggedIn: bool)
    requires AssetPath(pathname)
    ensures Middleware(pathname, isLoggedIn) == Next
  {
  }

  /** A line terminator anywhere in the path defeats the matcher's `.*`, so
      even an anonymous dashboard request passes unguarded. URL parsing
      removes or percent-encodes these characters, so no parsed pathname
      holds one. */
  lemma LineTerminatorSkipsGuard()
    ensures Middleware("/dashboard\r", false) == Next
  {
    assert LineTerminator("/dashboard\r"[10]);
  }
}

=== FILE: credentials.dfy ===
/** The Credentials provider's `authorize` callback: a read-only decision
    over the store that yields the user to sign in, or null. */
module Credentials {
  import opened Optional
  import opened Hasher
  import opened Store

  /** The submitted `{ email, password }`; an absent field is None. */
  datatype Credentials = Credentials(email: Option<string>, password: Option<string>)

  function Authorize(s: Store, c: Credentials): (r: Option<User>)
    ensures r.Some? ==> Truthy(c.email) && Truthy(c.password)
    ensures r.Some? ==> r.value in s.users && r.value.email == c.email.value
    ensures r.Some? ==> r.value.password.Some? && Verify(c.password.value, r.value.password.value)
  {
    if !Truthy(c.email) || !Truthy(c.password) then None
    else match FindUserByEmail(s.users, c.email.value)
      case None => None
      case Some(k) =>
        var u := s.users[k];
        if u.password.None? then None
        else if !Verify(c.password.value, u.password.value) then None
        else Some(u)
  }

  /** Completeness: a registered user with a stored hash that verifies
      against the submitted password is signed in. Together with the
      contract of `Authorize` this characterises a non-null result. */
  lemma AuthorizeComplete(s: Store, c: Credentials, k: nat)
    requires UniqueEmails(s.users)
    requires Truthy(c.email) && Truthy(c.password)
    requires k < |s.users| && s.users[k].email == c.email.value
    requires s.users[k].password.Some? && Verify(c.password.value, s.users[k].password.value)
    ensures Authorize(s, c) == Some(s.users[k])
  {
    FindUserByEmailUnique(s.users, k);
  }

  /** A registered user whose stored hash does not verify, or who has no
      stored hash (an OAuth-only account), is refused. */
  lemma AuthorizeRefusesUser(s: Store, c: Credentials, k: nat)
    requires UniqueEmails(s.users)
    requires Truthy(c.email) && Truthy(c.password)
    requires k < |s.users| && s.users[k].email == c.email.value
    requires s.users[k].password.None? || !Verify(c.password.value, s.users[k].password.value)
    ensures Authorize(s, c) == None
  {
    FindUserByEmailUnique(s.users, k);
  }
}

=== FILE: forgot_password.dfy ===
/** `POST /api/auth/forgot-password`: issuing a reset token.

    The handler has no exception handling: a failing store write or mail
    send escapes it (`Thrown`), after whatever writes already happened.
    It only ever inserts a token row; older rows for the same email are
    left alone. */
module ForgotPassword {
  import opened Optional
  import opened Store
  import opened Http
  import opened Hex

  /** Token lifetime: one hour in milliseconds. */
  const TtlMs: int := 3600000

  /** The bytes `crypto.randomBytes` returns. */
  const TokenBytes: nat := 32

  const UnknownEmailReply := Reply(200, "If email exists, link sent")
  const LinkSentReply := Reply(200, "Reset link sent")

  /** The message handed to the mail transport. */
  datatype Mail = Mail(to: string, subject: string, html: string)

  /** `now` is `Date.now()`; `random` the 32 bytes drawn for the token;
      `baseUrl` the NEXTAUTH_URL setting (None when unset); `mailDelivered`
      whether `sendMail` resolves. */
  datatype Env = Env(now: int, random: seq<Byte>, baseUrl: Option<string>, mailDelivered: bool)

  /** `mail` is the message handed to the transport, if one was. */
  datatype Outcome = Outcome(response: Response, store: Store, mail: Option<Mail>)

  /** A token as the handler mints it: 64 lowercase hex characters. */
  predicate IsResetToken(t: string) {
    |t| == 2 * TokenBytes && forall i :: 0 <= i < |t| ==> IsHexDigit(t[i])
  }

  /** `crypto.randomBytes(32).toString("hex")`. */
  function MintToken(random: seq<Byte>): (t: string)
    requires |random| == TokenBytes
    ensures IsResetToken(t)
  {
    Encode(random)
  }

  /** The template literal's rendering of the base URL: an unset variable
      renders as the text "undefined". */
  function BaseText(baseUrl: Option<string>): string {
    if baseUrl.Some? then baseUrl.value else "undefined"
  }

  /** The reset link: the base URL, then the reset page's path and query
      key, then the token at the very end. */
  function ResetLink(baseUrl: Option<string>, token: string): (link: string)
    ensures |link| == |BaseText(baseUrl)| + |"/reset-password?token="| + |token|
    ensures link[..|BaseText(baseUrl)|] == BaseText(baseUrl)
    ensures link[|BaseText(baseUrl)|..|link| - |token|] == "/reset-password?token="
    ensures link[|link| - |token|..] == token
  {
    BaseText(baseUrl) + "/reset-password?token=" + token
  }

  /** The value at the end of a link's query string: the text after its
      last '='. This is what the reset page reads as its `token` parameter
      for the links built here. */
  function TokenParam(link: string): string
    decreases |link|
  {
    if |link| == 0 || link[|link| - 1] == '=' then ""
    else TokenParam(link[..|link| - 1]) + [link[|link| - 1]]
  }

  lemma {:induction false} TokenParamAfterEquals(prefix: string, value: string)
    requires |prefix| > 0 && prefix[|prefix| - 1] == '='
    requires forall i :: 0 <= i < |value| ==> value[i] != '='
    ensures TokenParam(prefix + value) == value
  {
    if |value| == 0 {
      assert prefix + value == prefix;
    } else {
      var shorter := value[..|value| - 1];
      assert (prefix + value)[..|prefix + value| - 1] == prefix + shorter;
      TokenParamAfterEquals(prefix, shorter);
      assert shorter + [value[|value| - 1]] == value;
    }
  }

  /** Whatever the base URL, the link's token parameter is the minted token:
      hex digits never contain '='. */
  lemma ResetLinkCarriesToken(baseUrl: Option<string>, random: seq<Byte>)
    requires |random| == TokenBytes
    ensures TokenParam(ResetLink(baseUrl, MintToken(random))) == MintToken(random)
  {
    var prefix := BaseText(baseUrl) + "/reset-password?token=";
    assert ResetLink(baseUrl, MintToken(random)) == prefix + MintToken(random);
    TokenParamAfterEquals(prefix, MintToken(random));
  }

  /** The message: to the submitted address, with the link as the target
      of the one anchor in its body. */
  function ResetMail(email: string, link: string): (m: Mail)
    ensures m.to == email && m.subject == "Reset Password"
    ensures |m.html| == |link| + 29
    ensures m.html[..9] == "<a href=\"" && m.html[9..9 + |link|] == link
    ensures m.html[9 + |link|..] == "\">Reset Password</a>"
  {
    Mail(email, "Reset Password", "<a href=\"" + link + "\">Reset Password</a>")
  }

  /** The text before the first '"': how a mail client reads an attribute
      value written between double quotes. */
  function QuotedValue(t: string): string
  {
    if |t| == 0 || t[0] == '"' then "" else [t[0]] + QuotedValue(t[1..])
  }

  /** The target of an anchor that opens a mail body, as a mail client
      reads it; empty when the body does not open with an anchor. */
  function AnchorTarget(html: string): string
  {
    if |html| >= 9 && html[..9] == "<a href=\"" then QuotedValue(html[9..]) else ""
  }

  lemma {:induction false} QuotedValueOf(value: string, rest: string)
    requires '"' !in value
    requires |rest| > 0 && rest[0] == '"'
    ensures QuotedValue(value + rest) == value
  {
    if |value| > 0 {
      assert (value + rest)[1..] == value[1..] + rest;
      QuotedValueOf(value[1..], rest);
      assert [value[0]] + value[1..] == value;
    } else {
      assert value + rest == rest;
    }
  }

  /** A link without a double quote is recovered whole as the anchor's
      target in the mail body. */
  lemma ResetMailTarget(email: string, link: string)
    requires '"' !in link
    ensures AnchorTarget(ResetMail(email, link).html) == link
  {
    var html := ResetMail(email, link).html;
    assert html[9..] == link + "\">Reset Password</a>";
    QuotedValueOf(link, "\">Reset Password</a>");
  }

  /** Following the mail's anchor and reading its token parameter gives the
      minted token back, whenever the base URL holds no double quote. */
  lemma ResetMailCarriesToken(email: string, baseUrl: Option<string>, random: seq<Byte>)
    requires |random| == TokenBytes
    requires '"' !in BaseText(baseUrl)
    ensures TokenParam(AnchorTarget(ResetMail(email, ResetLink(baseUrl, MintToken(random))).html))
         == MintToken(random)
  {
    var token := MintToken(random);
    var link := ResetLink(baseUrl, token);
    TokenAlphabet(token);
    assert link == BaseText(baseUrl) + "/reset-password?token=" + token;
    assert '"' !in link by {
      forall i | 0 <= i < |link|
        ensures link[i] != '"'
      {
        if i >= |link| - |token| {
          assert link[i] == token[i - (|link| - |token|)];
          assert link[i] in token;
        } else if i >= |BaseText(baseUrl)| {
          assert link[i] == "/reset-password?token="[i - |BaseText(baseUrl)|];
        } else {
          assert link[i] == BaseText(baseUrl)[i];
        }
      }
    }
    ResetMailTarget(email, link);
    ResetLinkCarriesToken(baseUrl, random);
  }

  function Issue(s: Store, env: Env, email: Option<string>): (o: Outcome)
    requires |env.random| == TokenBytes
    ensures o.response.Answered? ==> o.response.reply.status == 200
    ensures o.store.users == s.users
    ensures |s.tokens| <= |o.store.tokens| <= |s.tokens| + 1
    ensures o.store.tokens[..|s.tokens|] == s.tokens
    ensures o.mail.Some? <==> |o.store.tokens| == |s.tokens| + 1
    ensures o.mail.Some? ==> email.Some? && o.mail.value.to == email.value
    ensures email.None? ==> o == Outcome(Thrown, s, None)
  {
    if email.None? then
      // findUnique with no unique field in `where` is rejected by Prisma
      Outcome(Thrown, s, None)
    else match FindUserByEmail(s.users, email.value)
      case None => Outcome(Answered(UnknownEmailReply), s, None)
      case Some(_) =>
        var token := MintToken(env.random);
        var row := TokenRow(email.value, token, env.now + TtlMs);
        if HasKey(s.tokens, row.identifier, row.token) then
          // the insert violates the composite primary key
          Outcome(Thrown, s, None)
        else
          var s' := s.(tokens := s.tokens + [row]);
          var mail := ResetMail(email.value, ResetLink(env.baseUrl, token));
          if env.mailDelivered then Outcome(Answered(LinkSentReply), s', Some(mail))
          else Outcome(Thrown, s', Some(mail))
  }

  /** An email no user holds is answered 200 with the generic message; no
      row is added and no mail goes out. */
  lemma IssueUnknownEmail(s: Store, env: Env, email: string)
    requires |env.random| == TokenBytes
    requires forall u :: u in s.users ==> u.email != email
    ensures Issue(s, env, Some(email)) == Outcome(Answered(UnknownEmailReply), s, None)
  {
  }

  /** For a registered email with a fresh token: exactly one row is
      appended, owned by that email, carrying the minted token and expiring
      one hour from now; the link is the base URL, the reset page and the
      token; the mail goes to the submitted email. */
  lemma IssueKnownEmail(s: Store, env: Env, email: string, k: nat)
    requires |env.random| == TokenBytes
    requires k < |s.users| && s.users[k].email == email
    requires !HasKey(s.tokens, email, Encode(env.random))
    ensures var o := Issue(s, env, Some(email));
      var token := Encode(env.random);
      && o.store.tokens == s.tokens + [TokenRow(email, token, env.now + 3600000)]
      && |token| == 64 && (forall c :: c in token ==> c in "0123456789abcdef")
      && o.mail == Some(Mail(email, "Reset Password",
           "<a href=\"" + BaseText(env.baseUrl) + "/reset-password?token=" + token + "\">Reset Password</a>"))
      && o.response == (if env.mailDelivered then Answered(LinkSentReply) else Thrown)
  {
    var token := Encode(env.random);
    TokenAlphabet(token);
    ResetMailText(email, env.baseUrl, token);
  }

  lemma TokenAlphabet(token: string)
    requires forall i :: 0 <= i < |token| ==> IsHexDigit(token[i])
    ensures forall c :: c in token ==> c in "0123456789abcdef"
  {
    forall c | c in token
      ensures c in "0123456789abcdef"
    {
      HexDigitInAlphabet(c);
    }
  }

  /** The message text written out in full. */
  lemma ResetMailText(email: string, baseUrl: Option<string>, token: string)
    ensures ResetMail(email, ResetLink(baseUrl, token)) == Mail(email, "Reset Password",
      "<a href=\"" + BaseText(baseUrl) + "/reset-password?token=" + token + "\">Reset Password</a>")
  {
    var base := BaseText(baseUrl);
    assert "<a href=\"" + (base + "/reset-password?token=" + token) + "\">Reset Password</a>"
        == "<a href=\"" + base + "/reset-password?token=" + token + "\">Reset Password</a>";
  }

  /** The minted token spells the random bytes in hex: decoding it gives
      them back, so distinct draws give distinct tokens. */
  lemma MintTokenDecodes(random: seq<Byte>)
    requires |random| == TokenBytes
    ensures Decode(MintToken(random)) == Some(random)
  {
    DecodeEncode(random);
  }

  /** A body without `email` escapes the handler before any read, write
      or mail, whatever the store holds. */
  lemma IssueMissingEmail(s: Store, env: Env)
    requires |env.random| == TokenBytes
    ensures Issue(s, env, None) == Outcome(Thrown, s, None)
  {
  }

  /** An insert whose (email, token) key already exists escapes the
      handler: nothing is written and no mail is sent. */
  lemma IssueDuplicateKey(s: Store, env: Env, email: string, k: nat)
    requires |env.random| == TokenBytes
    requires k < |s.users| && s.users[k].email == email
    requires HasKey(s.tokens, email, Encode(env.random))
    ensures Issue(s, env, Some(email)) == Outcome(Thrown, s, None)
  {
  }

  /** The row is inserted before the mail is sent: a failing send escapes
      the handler and leaves the new token row in place. */
  lemma IssueMailFailureKeepsRow(s: Store, env: Env, email: string, k: nat)
    requires |env.random| == TokenBytes
    requires k < |s.users| && s.users[k].email == email
    requires !HasKey(s.tokens, email, Encode(env.random))
    requires !env.mailDelivered
    ensures var o := Issue(s, env, Some(email));
      o.response == Thrown && |o.store.tokens| == |s.tokens| + 1
      && o.store.tokens[|s.tokens|].identifier == email
  {
  }

  /** Issuance never supersedes: every row present before, including older
      tokens for the same email, is still present afterwards, in place. */
  lemma IssueKeepsOlderTokens(s: Store, env: Env, email: Option<string>, i: nat)
    requires |env.random| == TokenBytes
    requires i < |s.tokens|
    ensures i < |Issue(s, env, email).store.tokens| && Issue(s, env, email).store.tokens[i] == s.tokens[i]
  {
    var o := Issue(s, env, email);
    assert o.store.tokens[..|s.tokens|][i] == s.tokens[i];
  }

  /** Both answered branches say 200, but with different messages, so the
      reply does reveal whether the email is registered. */
  lemma IssueRepliesDiffer(s: Store, env: Env, known: string, unknown: string, k: nat)
    requires |env.random| == TokenBytes
    requires k < |s.users| && s.users[k].email == known
    requires !HasKey(s.tokens, known, Encode(env.random))
    requires env.mailDelivered
    requires forall u :: u in s.users ==> u.email != unknown
    ensures var a := Issue(s, env, Some(known)).response;
      var b := Issue(s, env, Some(unknown)).response;
      a.Answered? && b.Answered? && a.reply.status == b.reply.status && a.reply.message != b.reply.message
  {
  }

  /** Issuance keeps the store valid: a duplicate key is refused by the
      insert, and a fresh one is appended. */
  lemma IssueKeepsValid(s: Store, env: Env, email: Option<string>)
    requires |env.random| == TokenBytes
    requires Valid(s)
    ensures Valid(Issue(s, env, email).store)
  {
    if email.Some? && FindUserByEmail(s.users, email.value).Some? {
      var row := TokenRow(email.value, MintToken(env.random), env.now + TtlMs);
      if !HasKey(s.tokens, row.identifier, row.token) {
        AppendKeepsUnique(s.tokens, row);
      }
    }
  }
}

=== FILE: hasher.dfy ===
/** The password hasher (bcrypt), idealised.

    bcrypt draws a fresh salt on every call and embeds it in the digest, so
    the model takes the salt as a parameter. The digest is modelled as a
    commitment to the plaintext that only `Verify` inspects: verification
    succeeds for the hashed plaintext and for nothing else (no collisions).
    The cost factor is not modelled. */
module Hasher {

  /** The random salt bcrypt generates for one `hash` call. */
  type Salt = nat

  datatype Digest = Digest(salt: Salt, secret: string)

  /** `bcrypt.compare(password, digest)`. */
  predicate Verify(password: string, d: Digest) {
    d.secret == password
  }

  /** `bcrypt.hash(password, 10)` with the salt it drew. */
  function Hash(password: string, salt: Salt): (d: Digest)
    ensures Verify(password, d)
    ensures d.salt == salt
  {
    Digest(salt, password)
  }

  /** Verifying a digest accepts exactly the plaintext it was made from,
      whatever salt was drawn. */
  lemma VerifyHash(password: string, candidate: string, salt: Salt)
    ensures Verify(candidate, Hash(password, salt)) <==> candidate == password
  {
  }
}

=== FILE: hex.dfy ===
/** Lowercase hexadecimal text, as produced by Node's `Buffer.toString("hex")`:
    two digits per byte, high nibble first. */
module Hex {
  import opened Optional

  type Byte = b: int | 0 <= b < 256

  predicate IsHexDigit(c: char) {
    '0' <= c <= '9' || 'a' <= c <= 'f'
  }

  /** The digit for a nibble. */
  function Digit(n: nat): (c: char)
    requires n < 16
    ensures IsHexDigit(c)
  {
    if n < 10 then ('0' as int + n) as char else ('a' as int + n - 10) as char
  }

  /** The nibble a digit stands for; the inverse of `Digit`. */
  function DigitValue(c: char): (n: nat)
    requires IsHexDigit(c)
    ensures n < 16 && Digit(n) == c
  {
    if c <= '9' then (c as int - '0' as int) else (c as int - 'a' as int + 10)
  }

  /** The hex digits are exactly the sixteen characters of "0123456789abcdef". */
  lemma HexDigitInAlphabet(c: char)
    ensures IsHexDigit(c) <==> c in "0123456789abcdef"
  {
  }

  lemma ValueOfDigit(n: nat)
    requires n < 16
    ensures DigitValue(Digit(n)) == n
  {
  }

  /** `Buffer.from(bytes).toString("hex")`. */
  function Encode(bytes: seq<Byte>): (s: string)
    ensures |s| == 2 * |bytes|
    ensures forall i :: 0 <= i < |s| ==> IsHexDigit(s[i])
  {
    if |bytes| == 0 then ""
    else [Digit(bytes[0] / 16), Digit(bytes[0] % 16)] + Encode(bytes[1..])
  }

  /** The bytes a hex string spells, or None when it has odd length or a
      character outside [0-9a-f]. */
  function Decode(s: string): (r: Option<seq<Byte>>)
    ensures r.Some? ==> 2 * |r.value| == |s|
    decreases |s|
  {
    if |s| == 0 then Some([])
    else if |s| == 1 || !IsHexDigit(s[0]) || !IsHexDigit(s[1]) then None
    else match Decode(s[2..])
      case None => None
      case Some(rest) => Some([(DigitValue(s[0]) * 16 + DigitValue(s[1])) as Byte] + rest)
  }

  /** Decoding recovers the encoded bytes. */
  lemma {:induction false} DecodeEncode(bytes: seq<Byte>)
    ensures Decode(Encode(bytes)) == Some(bytes)
  {
    if |bytes| > 0 {
      var b := bytes[0];
      var s := Encode(bytes);
      assert s[2..] == Encode(bytes[1..]);
      DecodeEncode(bytes[1..]);
      ValueOfDigit(b / 16);
      ValueOfDigit(b % 16);
      assert DigitValue(s[0]) * 16 + DigitValue(s[1]) == b;
      assert [b] + bytes[1..] == bytes;
    }
  }

  /** Distinct byte strings have distinct encodings. */
  lemma EncodeInjective(a: seq<Byte>, b: seq<Byte>)
    requires Encode(a) == Encode(b)
    ensures a == b
  {
    DecodeEncode(a);
    DecodeEncode(b);
  }
}

=== FILE: optional.dfy ===
/** Optional values, and the truthiness test the route handlers apply to request fields. */
module Optional {

  /** A value that may be absent: an `undefined` request field or a nullable column. */
  datatype Option<T> = None | Some(value: T) {

    /** The value, or `default` when absent. */
    function GetOr(default: T): T {
      if Some? then value else default
    }
  }

  /** JavaScript's `!!v` on a field that is either a string or absent:
      both the absent field and the empty string are falsy. */
  predicate Truthy(v: Option<string>) {
    v.Some? && v.value != ""
  }
}

/** What a route handler hands back to the framework. */
module Http {

  /** A JSON body `{ message }` with its HTTP status. */
  datatype Reply = Reply(status: nat, message: string)

  /** Either the handler answered, or an exception escaped it; for an escaped
      exception the framework answers 500 without the handler's body. */
  datatype Response = Answered(reply: Reply) | Thrown
}

=== FILE: profile.dfy ===
/** `PATCH /api/user/profile`: the signed-in user edits their own name,
    email and bio. Every exception is caught and answered with 500. */
module Profile {
  import opened Optional
  import opened Store

  /** The JSON body `{ name, email, bio }`; an absent field is None. */
  datatype Input = Input(name: Option<string>, email: Option<string>, bio: Option<string>)

  /** A plain-text body with its status, or the updated record as JSON (200). */
  datatype Response = Text(status: nat, body: string) | UserJson(user: User)

  datatype Outcome = Outcome(response: Response, store: Store)

  const Unauthorized := Text(401, "Unauthorized")
  const InternalError := Text(500, "Internal Error")

  /** Prisma's `data: { name, email, bio }`: a field left undefined is not
      written; no other column is. */
  function Apply(u: User, input: Input): (u': User)
    ensures u'.id == u.id && u'.password == u.password
    ensures u'.name == (if input.name.Some? then input.name else u.name)
    ensures u'.email == (if input.email.Some? then input.email.value else u.email)
    ensures u'.bio == (if input.bio.Some? then input.bio else u.bio)
  {
    u.(name := if input.name.Some? then input.name else u.name,
       email := input.email.GetOr(u.email),
       bio := if input.bio.Some? then input.bio else u.bio)
  }

  /** Whether a user other than the one at `k` already holds `email`. */
  predicate EmailTakenByOther(users: seq<User>, email: string, k: nat) {
    exists j :: 0 <= j < |users| && j != k && users[j].email == email
  }

  /** `sessionUserId` is `session?.user?.id`: None without a session. */
  function UpdateProfile(s: Store, sessionUserId: Option<string>, input: Input): (o: Outcome)
    ensures o.response == Unauthorized <==> !Truthy(sessionUserId)
    ensures o.response.Text? ==> o.store == s && o.response in {Unauthorized, InternalError}
    ensures o.store.tokens == s.tokens
    ensures |o.store.users| == |s.users|
    ensures forall j :: 0 <= j < |s.users| ==>
      o.store.users[j].id == s.users[j].id && o.store.users[j].password == s.users[j].password
    ensures forall j :: 0 <= j < |s.users| && o.store.users[j] != s.users[j] ==>
      Truthy(sessionUserId) && s.users[j].id == sessionUserId.value
    ensures o.response.UserJson? ==>
      o.response.user in o.store.users && o.response.user.id == sessionUserId.value
  {
    if !Truthy(sessionUserId) then Outcome(Unauthorized, s)
    else match FindUserById(s.users, sessionUserId.value)
      // updating a record that does not exist throws
      case None => Outcome(InternalError, s)
      case Some(k) =>
        if input.email.Some? && EmailTakenByOther(s.users, input.email.value, k) then
          // the unique constraint on email rejects the update
          Outcome(InternalError, s)
        else
          var u := Apply(s.users[k], input);
          Outcome(UserJson(u), s.(users := s.users[k := u]))
  }

  /** No session user id, no change. */
  lemma ProfileUnauthorized(s: Store, sessionUserId: Option<string>, input: Input)
    requires !Truthy(sessionUserId)
    ensures UpdateProfile(s, sessionUserId, input) == Outcome(Unauthorized, s)
  {
  }

  /** A session whose user id no row has gives 500 and no change. */
  lemma ProfileUnknownUser(s: Store, id: UserId, input: Input)
    requires id != ""
    requires forall u :: u in s.users ==> u.id != id
    ensures UpdateProfile(s, Some(id), input) == Outcome(InternalError, s)
  {
  }

  /** An email another user already holds gives 500 and no change. */
  lemma ProfileEmailConflict(s: Store, input: Input, k: nat, j: nat)
    requires UniqueIds(s.users)
    requires k < |s.users| && s.users[k].id != ""
    requires j < |s.users| && j != k
    requires input.email == Some(s.users[j].email)
    ensures UpdateProfile(s, Some(s.users[k].id), input) == Outcome(InternalError, s)
  {
    FindUserByIdUnique(s.users, k);
  }

  /** The session's own user gets exactly the submitted fields, everything
      else stays, and the response is the updated record, which still
      carries the stored password hash. */
  lemma ProfileUpdated(s: Store, input: Input, k: nat)
    requires UniqueIds(s.users)
    requires k < |s.users| && s.users[k].id != ""
    requires input.email.None? || !EmailTakenByOther(s.users, input.email.value, k)
    ensures var o := UpdateProfile(s, Some(s.users[k].id), input);
      && o.response.UserJson?
      && o.store.users[k] == o.response.user
      && (input.name.Some? ==> o.response.user.name == input.name)
      && (input.email.Some? ==> o.response.user.email == input.email.value)
      && (input.bio.Some? ==> o.response.user.bio == input.bio)
      && (input.name.None? ==> o.response.user.name == s.users[k].name)
      && (input.email.None? ==> o.response.user.email == s.users[k].email)
      && (input.bio.None? ==> o.response.user.bio == s.users[k].bio)
      && o.response.user.password == s.users[k].password
      && (forall j :: 0 <= j < |s.users| && j != k ==> o.store.users[j] == s.users[j])
  {
    FindUserByIdUnique(s.users, k);
  }

  /** Every outcome keeps ids and emails unique. */
  lemma ProfileKeepsValid(s: Store, sessionUserId: Option<string>, input: Input)
    requires Valid(s)
    ensures Valid(UpdateProfile(s, sessionUserId, input).store)
  {
    var o := UpdateProfile(s, sessionUserId, input);
    if o.response.UserJson? {
      var k := FindUserById(s.users, sessionUserId.value).value;
      forall a, b | 0 <= a < |o.store.users| && 0 <= b < |o.store.users| && a != b
        ensures o.store.users[a].email != o.store.users[b].email
      {
        if a == k || b == k {
          var other := if a == k then b else a;
          if input.email.Some? {
            assert !EmailTakenByOther(s.users, input.email.value, k);
            assert s.users[other].email != input.email.value;
          }
        }
      }
    }
  }
}

=== FILE: reset_password.dfy ===
/** `POST /api/auth/reset-password`: redeeming a reset token.

    The handler is a pure function from the store, the environment (clock,
    bcrypt salt, outcome of the two store writes that can fail) and the
    request to the reply, the new store and whether the password was hashed.
    Every exception inside the handler is caught and answered with 500. */
module ResetPassword {
  import opened Optional
  import opened Hasher
  import opened Store
  import opened Http

  /** The JSON body `{ token, password }`; an absent field is None. */
  datatype Request = Request(token: Option<string>, password: Option<string>)

  /** `now` is `new Date()` in milliseconds; `cleanupSucceeds` is whether
      deleting an expired token works (its failure is swallowed);
      `commitSucceeds` is whether the final transaction commits. */
  datatype Env = Env(now: int, salt: Salt, cleanupSucceeds: bool, commitSucceeds: bool)

  /** `hashed` records whether `bcrypt.hash` was called. */
  datatype Outcome = Outcome(reply: Reply, store: Store, hashed: bool)

  const MissingInput := Reply(400, "Missing token or password")
  const InvalidLink := Reply(400, "Invalid or expired reset link")
  const ExpiredLink := Reply(400, "Reset link has expired. Please request a new one.")
  const AccountMissing := Reply(404, "Associated user account not found")
  const ResetDone := Reply(200, "Your password has been reset successfully.")
  const Unexpected := Reply(500, "An unexpected error occurred. Please try again later.")

  /** The transaction's effect: the user's password set to `digest` and the
      token row's key deleted. */
  function Commit(s: Store, k: nat, row: TokenRow, digest: Digest): (s': Store)
    requires k < |s.users|
    ensures |s'.users| == |s.users|
    ensures s'.users[k] == s.users[k].(password := Some(digest))
    ensures forall j :: 0 <= j < |s.users| && j != k ==> s'.users[j] == s.users[j]
    ensures forall r :: r in s'.tokens <==> r in s.tokens && !SameKey(r, row)
  {
    Store(s.users[k := s.users[k].(password := Some(digest))],
          DeleteKey(s.tokens, row.identifier, row.token))
  }

  function Redeem(s: Store, env: Env, req: Request): (o: Outcome)
    ensures o.reply in {MissingInput, InvalidLink, ExpiredLink, AccountMissing, ResetDone, Unexpected}
    ensures o.hashed <==> o.reply == ResetDone || o.reply == Unexpected
    ensures o.reply != ResetDone ==> o.store.users == s.users
    ensures o.reply != ResetDone && o.reply != ExpiredLink ==> o.store == s
  {
    if !Truthy(req.token) || !Truthy(req.password) then
      Outcome(MissingInput, s, false)
    else match FindToken(s.tokens, req.token.value)
      case None => Outcome(InvalidLink, s, false)
      case Some(i) =>
        var row := s.tokens[i];
        if env.now > row.expires then
          var cleaned := if env.cleanupSucceeds
            then s.(tokens := DeleteKey(s.tokens, row.identifier, row.token))
            else s;
          Outcome(ExpiredLink, cleaned, false)
        else match FindUserByEmail(s.users, row.identifier)
          case None => Outcome(AccountMissing, s, false)
          case Some(k) =>
            var digest := Hash(req.password.value, env.salt);
            if env.commitSucceeds then Outcome(ResetDone, Commit(s, k, row, digest), true)
            else Outcome(Unexpected, s, true)
  }

  /** Row `i` is the one `findFirst({ where: { token } })` returns. */
  predicate FirstRowFor(s: Store, token: string, i: nat) {
    i < |s.tokens| && s.tokens[i].token == token
    && forall j :: 0 <= j < i ==> s.tokens[j].token != token
  }

  /** A missing or empty token or password is rejected before any lookup. */
  lemma RedeemMissingInput(s: Store, env: Env, req: Request)
    requires !Truthy(req.token) || !Truthy(req.password)
    ensures Redeem(s, env, req) == Outcome(MissingInput, s, false)
  {
  }

  /** A token no row carries is rejected and nothing changes. */
  lemma RedeemUnknownToken(s: Store, env: Env, req: Request)
    requires Truthy(req.token) && Truthy(req.password)
    requires forall r :: r in s.tokens ==> r.token != req.token.value
    ensures Redeem(s, env, req) == Outcome(InvalidLink, s, false)
  {
  }

  /** A token whose expiry lies strictly in the past is rejected; its row is
      deleted when the cleanup works and left when it fails, and no user
      changes. */
  lemma RedeemExpired(s: Store, env: Env, req: Request, i: nat)
    requires Truthy(req.token) && Truthy(req.password)
    requires FirstRowFor(s, req.token.value, i)
    requires env.now > s.tokens[i].expires
    ensures var o := Redeem(s, env, req);
      && o.reply == ExpiredLink
      && !o.hashed
      && o.store.users == s.users
      && (env.cleanupSucceeds ==> forall r :: r in o.store.tokens <==> r in s.tokens && !SameKey(r, s.tokens[i]))
      && (!env.cleanupSucceeds ==> o.store == s)
  {
  }

  /** Expiry is strict: up to and including the expiry instant the token
      passes validation and the handler goes on to the user lookup. */
  lemma RedeemUnexpired(s: Store, env: Env, req: Request, i: nat)
    requires Truthy(req.token) && Truthy(req.password)
    requires FirstRowFor(s, req.token.value, i)
    requires env.now <= s.tokens[i].expires
    ensures Redeem(s, env, req).reply in {AccountMissing, ResetDone, Unexpected}
  {
  }

  /** A valid token whose owner no longer exists gives 404 and changes
      nothing, the token row included. */
  lemma RedeemAccountMissing(s: Store, env: Env, req: Request, i: nat)
    requires Truthy(req.token) && Truthy(req.password)
    requires FirstRowFor(s, req.token.value, i)
    requires env.now <= s.tokens[i].expires
    requires forall u :: u in s.users ==> u.email != s.tokens[i].identifier
    ensures Redeem(s, env, req) == Outcome(AccountMissing, s, false)
  {
  }

  /** A valid token of an existing owner resets exactly that owner's
      password to the hash of the new one and consumes exactly that token
      row; nothing else changes and the store stays valid. */
  lemma RedeemSuccess(s: Store, env: Env, req: Request, i: nat, k: nat)
    requires Valid(s)
    requires Truthy(req.token) && Truthy(req.password)
    requires FirstRowFor(s, req.token.value, i)
    requires env.now <= s.tokens[i].expires
    requires k < |s.users| && s.users[k].email == s.tokens[i].identifier
    requires env.commitSucceeds
    ensures var o := Redeem(s, env, req);
      && o.reply == ResetDone
      && o.hashed
      && |o.store.users| == |s.users|
      && o.store.users[k] == s.users[k].(password := Some(Hash(req.password.value, env.salt)))
      && (forall j :: 0 <= j < |s.users| && j != k ==> o.store.users[j] == s.users[j])
      && (forall r :: r in o.store.tokens <==> r in s.tokens && !SameKey(r, s.tokens[i]))
      && Valid(o.store)
  {
    FindUserByEmailUnique(s.users, k);
    DeleteKeyKeepsUnique(s.tokens, s.tokens[i].identifier, s.tokens[i].token);
  }

  /** Atomicity: when the transaction fails, neither the password nor the
      token row changes, and the reply is 500. */
  lemma RedeemCommitFails(s: Store, env: Env, req: Request, i: nat, k: nat)
    requires Truthy(req.token) && Truthy(req.password)
    requires FirstRowFor(s, req.token.value, i)
    requires env.now <= s.tokens[i].expires
    requires k < |s.users| && s.users[k].email == s.tokens[i].identifier
    requires !env.commitSucceeds
    ensures Redeem(s, env, req) == Outcome(Unexpected, s, true)
  {
  }

  /** Every outcome keeps the store valid. */
  lemma RedeemKeepsValid(s: Store, env: Env, req: Request)
    requires Valid(s)
    ensures Valid(Redeem(s, env, req).store)
  {
    if Truthy(req.token) && Truthy(req.password) {
      match FindToken(s.tokens, req.token.value)
      case None =>
      case Some(i) =>
        DeleteKeyKeepsUnique(s.tokens, s.tokens[i].identifier, s.tokens[i].token);
    }
  }

  /** Single use: once a token has been redeemed, presenting it again is
      answered as an invalid link, provided no other row held the same
      token string. */
  lemma RedeemTwice(s: Store, env: Env, req: Request, env2: Env, req2: Request)
    requires Valid(s)
    requires Redeem(s, env, req).reply == ResetDone
    requires req2.token == req.token && Truthy(req2.password)
    requires forall a, b :: (0 <= a < |s.tokens| && 0 <= b < |s.tokens|
      && s.tokens[a].token == req.token.value && s.tokens[b].token == req.token.value) ==> a == b
    ensures Redeem(Redeem(s, env, req).store, env2, req2) == Outcome(InvalidLink, Redeem(s, env, req).store, false)
  {
  }

  /** Hashing comes last: no reply and no store change of an exit taken
      before the hash depends on the salt, and on the paths that do hash
      the replies agree. */
  lemma RedeemSaltIndependent(s: Store, env: Env, req: Request, salt2: Salt)
    ensures var o1 := Redeem(s, env, req);
      var o2 := Redeem(s, env.(salt := salt2), req);
      && o1.reply == o2.reply
      && o1.hashed == o2.hashed
      && (!o1.hashed ==> o1 == o2)
  {
  }
}

=== FILE: scenarios.dfy ===
/** Properties that span several handlers over the same store. */
module Scenarios {
  import opened Optional
  import opened Store
  import FP = ForgotPassword
  import RP = ResetPassword
  import C = Credentials
  import P = Profile

  /** Request a reset for a registered email, redeem the token within the
      hour: signing in then works with the new password and fails with any
      other. This holds whether or not the mail was delivered, since the row
      is written first. */
  lemma ResetThenSignIn(s: Store, issueEnv: FP.Env, redeemEnv: RP.Env, k: nat,
                        newPassword: string, oldPassword: string)
    requires Valid(s)
    requires |issueEnv.random| == FP.TokenBytes
    requires k < |s.users| && s.users[k].email != ""
    requires forall r :: r in s.tokens ==> r.token != FP.MintToken(issueEnv.random)
    requires redeemEnv.now <= issueEnv.now + FP.TtlMs && redeemEnv.commitSucceeds
    requires newPassword != ""
    ensures var email := s.users[k].email;
      var issued := FP.Issue(s, issueEnv, Some(email)).store;
      var token := FP.MintToken(issueEnv.random);
      var reset := RP.Redeem(issued, redeemEnv, RP.Request(Some(token), Some(newPassword)));
      && reset.reply == RP.ResetDone
      && C.Authorize(reset.store, C.Credentials(Some(email), Some(newPassword))).Some?
      && (oldPassword != newPassword ==>
            C.Authorize(reset.store, C.Credentials(Some(email), Some(oldPassword))) == None)
  {
    var email := s.users[k].email;
    var token := FP.MintToken(issueEnv.random);
    assert !HasKey(s.tokens, email, token);
    FP.IssueKnownEmail(s, issueEnv, email, k);
    FP.IssueKeepsValid(s, issueEnv, Some(email));
    var issued := FP.Issue(s, issueEnv, Some(email)).store;
    var i := |s.tokens|;
    assert RP.FirstRowFor(issued, token, i) by {
      forall j | 0 <= j < i
        ensures issued.tokens[j].token != token
      {
        assert issued.tokens[j] in s.tokens;
      }
    }
    var req := RP.Request(Some(token), Some(newPassword));
    RP.RedeemSuccess(issued, redeemEnv, req, i, k);
    var reset := RP.Redeem(issued, redeemEnv, req);
    C.AuthorizeComplete(reset.store, C.Credentials(Some(email), Some(newPassword)), k);
  }

  /** As written, a second request does not supersede the first: the
      earlier token is still redeemable within its hour. */
  lemma EarlierTokenStillRedeemable(s: Store, env1: FP.Env, env2: FP.Env, redeemEnv: RP.Env,
                                    k: nat, password: string)
    requires Valid(s)
    requires |env1.random| == FP.TokenBytes && |env2.random| == FP.TokenBytes
    requires k < |s.users| && s.users[k].email != ""
    requires forall r :: r in s.tokens ==> r.token != FP.MintToken(env1.random)
    requires redeemEnv.now <= env1.now + FP.TtlMs && redeemEnv.commitSucceeds
    requires password != ""
    ensures var email := s.users[k].email;
      var first := FP.Issue(s, env1, Some(email)).store;
      var second := FP.Issue(first, env2, Some(email)).store;
      RP.Redeem(second, redeemEnv, RP.Request(Some(FP.MintToken(env1.random)), Some(password))).reply
        == RP.ResetDone
  {
    var email := s.users[k].email;
    var token := FP.MintToken(env1.random);
    assert !HasKey(s.tokens, email, token);
    FP.IssueKnownEmail(s, env1, email, k);
    FP.IssueKeepsValid(s, env1, Some(email));
    var first := FP.Issue(s, env1, Some(email)).store;
    FP.IssueKeepsValid(first, env2, Some(email));
    var second := FP.Issue(first, env2, Some(email)).store;
    var i := |s.tokens|;
    FP.IssueKeepsOlderTokens(first, env2, Some(email), i);
    assert RP.FirstRowFor(second, token, i) by {
      forall j | 0 <= j < i
        ensures second.tokens[j].token != token
      {
        FP.IssueKeepsOlderTokens(first, env2, Some(email), j);
        assert second.tokens[j] in s.tokens;
      }
    }
    RP.RedeemSuccess(second, redeemEnv, RP.Request(Some(token), Some(password)), i, k);
  }

  /** Reset tokens are bound to an email, not to a user: once the owner
      changes their email through the profile, an outstanding token for the
      old email is answered with 404. */
  lemma EmailChangeOrphansResetToken(s: Store, input: P.Input, k: nat, i: nat,
                                     env: RP.Env, token: string, password: string)
    requires Valid(s)
    requires k < |s.users| && s.users[k].id != ""
    requires input.email.Some? && input.email.value != s.users[k].email
    requires !P.EmailTakenByOther(s.users, input.email.value, k)
    requires token != "" && password != ""
    requires RP.FirstRowFor(s, token, i) && s.tokens[i].identifier == s.users[k].email
    requires env.now <= s.tokens[i].expires
    ensures var edited := P.UpdateProfile(s, Some(s.users[k].id), input).store;
      RP.Redeem(edited, env, RP.Request(Some(token), Some(password))).reply == RP.AccountMissing
  {
    P.ProfileUpdated(s, input, k);
    var edited := P.UpdateProfile(s, Some(s.users[k].id), input).store;
    forall u | u in edited.users
      ensures u.email != s.tokens[i].identifier
    {
      var j :| 0 <= j < |edited.users| && edited.users[j] == u;
      if j != k {
        assert u == s.users[j];
      }
    }
    RP.RedeemAccountMissing(edited, env, RP.Request(Some(token), Some(password)), i);
  }
}

=== FILE: store.dfy ===
/** The credential store: the `User` and `VerificationToken` tables as the
    handlers see them through Prisma.

    Both tables are sequences in table order, so a query that returns "the
    first matching row" (Prisma's `findFirst`, and `findUnique` when the
    column is unique) is a deterministic function of the store. */
module Store {
  import opened Optional
  import opened Hasher

  type UserId = string

  /** A user row. `password` is absent for accounts created through OAuth;
      `name` and `bio` are nullable columns. */
  datatype User = User(
    id: UserId,
    email: string,
    password: Option<Digest>,
    name: Option<string>,
    bio: Option<string>)

  /** A reset-token row: the owner's email, the token, and the expiry
      instant in milliseconds since the epoch. */
  datatype TokenRow = TokenRow(identifier: string, token: string, expires: int)

  datatype Store = Store(users: seq<User>, tokens: seq<TokenRow>)

  /** Two token rows with the same composite key (identifier, token). */
  predicate SameKey(a: TokenRow, b: TokenRow) {
    a.identifier == b.identifier && a.token == b.token
  }

  predicate UniqueIds(users: seq<User>) {
    forall i, j :: 0 <= i < |users| && 0 <= j < |users| && i != j ==> users[i].id != users[j].id
  }

  predicate UniqueEmails(users: seq<User>) {
    forall i, j :: 0 <= i < |users| && 0 <= j < |users| && i != j ==> users[i].email != users[j].email
  }

  predicate UniqueKeys(rows: seq<TokenRow>) {
    forall i, j :: 0 <= i < |rows| && 0 <= j < |rows| && i != j ==> !SameKey(rows[i], rows[j])
  }

  /** The schema's constraints: primary key on users, unique email, and the
      composite primary key (identifier, token) on reset tokens. */
  predicate Valid(s: Store) {
    UniqueIds(s.users) && UniqueEmails(s.users) && UniqueKeys(s.tokens)
  }

  /** Index of the first element satisfying `p`, if any. */
  function FirstIndex<T>(s: seq<T>, p: T -> bool): (r: Option<nat>)
    ensures r.Some? ==> r.value < |s| && p(s[r.value])
    ensures r.Some? ==> forall j :: 0 <= j < r.value ==> !p(s[j])
    ensures r.None? ==> forall j :: 0 <= j < |s| ==> !p(s[j])
  {
    if |s| == 0 then None
    else if p(s[0]) then Some(0)
    else match FirstIndex(s[1..], p)
      case None => None
      case Some(k) => Some(k + 1)
  }

  /** `prisma.user.findUnique({ where: { email } })`, as an index. */
  function FindUserByEmail(users: seq<User>, email: string): (r: Option<nat>)
    ensures r.Some? ==> r.value < |users| && users[r.value].email == email
    ensures r.None? ==> forall j :: 0 <= j < |users| ==> users[j].email != email
  {
    FirstIndex(users, (u: User) => u.email == email)
  }

  /** The record lookup inside `prisma.user.update({ where: { id } })`, as
      an index; a miss makes the update throw. */
  function FindUserById(users: seq<User>, id: UserId): (r: Option<nat>)
    ensures r.Some? ==> r.value < |users| && users[r.value].id == id
    ensures r.None? ==> forall j :: 0 <= j < |users| ==> users[j].id != id
  {
    FirstIndex(users, (u: User) => u.id == id)
  }

  /** `prisma.verificationToken.findFirst({ where: { token } })`, as an index:
      the first row in table order that carries the token. */
  function FindToken(rows: seq<TokenRow>, token: string): (r: Option<nat>)
    ensures r.Some? ==> r.value < |rows| && rows[r.value].token == token
    ensures r.Some? ==> forall j :: 0 <= j < r.value ==> rows[j].token != token
    ensures r.None? ==> forall j :: 0 <= j < |rows| ==> rows[j].token != token
  {
    FirstIndex(rows, (row: TokenRow) => row.token == token)
  }

  /** Under unique emails, the lookup by email finds the one user holding it. */
  lemma FindUserByEmailUnique(users: seq<User>, k: nat)
    requires UniqueEmails(users)
    requires k < |users|
    ensures FindUserByEmail(users, users[k].email) == Some(k)
  {
  }

  /** Under unique ids, the lookup by id finds the one user holding it. */
  lemma FindUserByIdUnique(users: seq<User>, k: nat)
    requires UniqueIds(users)
    requires k < |users|
    ensures FindUserById(users, users[k].id) == Some(k)
  {
  }

  /** Whether some row has the composite key (identifier, token). */
  predicate HasKey(rows: seq<TokenRow>, identifier: string, token: string) {
    exists i :: 0 <= i < |rows| && rows[i].identifier == identifier && rows[i].token == token
  }

  /** `prisma.verificationToken.delete` on the composite key: the table
      without the rows carrying that key. */
  function DeleteKey(rows: seq<TokenRow>, identifier: string, token: string): (r: seq<TokenRow>)
    ensures forall row :: row in r <==> row in rows && !(row.identifier == identifier && row.token == token)
    ensures |r| <= |rows|
    ensures !HasKey(rows, identifier, token) ==> r == rows
  {
    if |rows| == 0 then []
    else
      var rest := DeleteKey(rows[1..], identifier, token);
      assert !HasKey(rows, identifier, token) ==> !HasKey(rows[1..], identifier, token) by {
        if HasKey(rows[1..], identifier, token) {
          var i :| 0 <= i < |rows[1..]| && rows[1..][i].identifier == identifier && rows[1..][i].token == token;
          assert rows[i + 1] == rows[1..][i];
        }
      }
      if rows[0].identifier == identifier && rows[0].token == token then rest
      else [rows[0]] + rest
  }

  /** A suffix of a table with unique keys has unique keys. */
  lemma TailKeepsUnique(rows: seq<TokenRow>)
    requires |rows| > 0 && UniqueKeys(rows)
    ensures UniqueKeys(rows[1..])
  {
    var tail := rows[1..];
    forall i, j | 0 <= i < |tail| && 0 <= j < |tail| && i != j
      ensures !SameKey(tail[i], tail[j])
    {
      assert tail[i] == rows[i + 1] && tail[j] == rows[j + 1];
    }
  }

  /** Putting a row in front of a table with unique keys, none of them the
      row's own, keeps keys unique. */
  lemma ConsKeepsUnique(head: TokenRow, rest: seq<TokenRow>)
    requires UniqueKeys(rest)
    requires forall r :: r in rest ==> !SameKey(head, r)
    ensures UniqueKeys([head] + rest)
  {
    var r := [head] + rest;
    forall i, j | 0 <= i < |r| && 0 <= j < |r| && i != j
      ensures !SameKey(r[i], r[j])
    {
      if i == 0 {
        assert r[j] == rest[j - 1] && rest[j - 1] in rest;
      } else if j == 0 {
        assert r[i] == rest[i - 1] && rest[i - 1] in rest;
      } else {
        assert r[i] == rest[i - 1] && r[j] == rest[j - 1];
      }
    }
  }

  /** Deleting a key keeps the composite keys of the remaining rows unique. */
  lemma {:induction false} DeleteKeyKeepsUnique(rows: seq<TokenRow>, identifier: string, token: string)
    requires UniqueKeys(rows)
    ensures UniqueKeys(DeleteKey(rows, identifier, token))
  {
    if |rows| > 0 {
      var tail := rows[1..];
      TailKeepsUnique(rows);
      DeleteKeyKeepsUnique(tail, identifier, token);
      var rest := DeleteKey(tail, identifier, token);
      if !(rows[0].identifier == identifier && rows[0].token == token) {
        forall r | r in rest
          ensures !SameKey(rows[0], r)
        {
          var m :| 0 <= m < |tail| && tail[m] == r;
          assert rows[m + 1] == r;
        }
        ConsKeepsUnique(rows[0], rest);
      }
    }
  }

  /** Appending a row whose key is new keeps composite keys unique. */
  lemma AppendKeepsUnique(rows: seq<TokenRow>, row: TokenRow)
    requires UniqueKeys(rows)
    requires !HasKey(rows, row.identifier, row.token)
    ensures UniqueKeys(rows + [row])
  {
    var r := rows + [row];
    forall i, j | 0 <= i < |r| && 0 <= j < |r| && i != j
      ensures !SameKey(r[i], r[j])
    {
      if i < |rows| && j < |rows| {
        assert r[i] == rows[i] && r[j] == rows[j];
      }
    }
  }
}
